=== FILE: README.md ===
# Book catalog: service store and page controller

A Dafny model of a two-part book catalog. The Python service keeps books
in an SQLite table and serves five endpoints under `/books`. The React
page caches the list, drives three dialogs (create/edit, details, delete
confirmation), checks and normalises the form, and shows one notification
at a time.

- `books.dfy` (`Books`): the book record, the four fields, the service's
  field constraints (`BookBase`) and their error list, and the five
  requests.
- `book_store.dfy` (`BookStore`): the table as a map from id to fields plus
  the AUTOINCREMENT counter. Each endpoint is a pure transition that returns
  the next table and a response (200/201/204, or 404, 422 or 500).
- `decimal.dfy` (`Decimal`): a year written as text (`String(n)`) and read
  back as its decimal prefix (`parseInt`).
- `book_form.dfy` (`BookForm`): the draft form, seeding it from a book, the
  required-field check and normalisation into a request body.
- `notice.dfy` (`Notice`): the notification record and the close
  operation.
- `app.dfy` (`App`): the page state and one transition per handler. An
  awaited request's outcome is an input to its handler. Each handler
  returns the requests it issued, in order.
- `session.dfy` (`Session`): the page and the service together. The page's
  requests are answered by `BookStore`, and the reload after a change is
  followed to its end.

The page's `fetchBooks` is split in two. `App.FetchStart` is the part that
runs before the list request is awaited: loading turns on and the request
is sent. `App.FetchFinish` runs when the request ends. `handleSubmit` and
`handleDelete` call `fetchBooks()` without awaiting it, so after a
successful save or delete the page is still loading. The reload finishes
later as a separate event (`App.ListDone`).

Three behaviours of the code are worth stating up front:
- The required-field check only tests for the empty string. Nothing is
  trimmed, so a title of spaces passes (`BookForm.BlankTitlePasses`).
- The dialogs are three independent flags, not one dialog state.
  `selectedBook` is shared by the details and delete dialogs
  (`App.SharedSelection`).
- A failed reload is caught inside `fetchBooks` and shown as an error
  notification. Nothing is passed on to the caller.

A notification's message is a `Books.Message`. It is text, or the list of
violations that a 422 response carries as its `detail`. The page shows a
failed save's detail whenever it is truthy, and a list always is. The
model keeps that as-written behaviour; see "## Findings".

## Model

| member | source | states |
|---|---|---|
| `Books.Violations` | backend/main.py:31-35 | the error list is empty exactly when title is 1..200 characters, author 1..100, year null or 1000..9999 and genre null or at most 50 characters; it names every field that breaks its bound and no other |
| `BookStore.Create` | backend/main.py:78-90 | an invalid body gives 422 and changes nothing; an exhausted counter gives 500; otherwise the new id is one past every id issued before, is not in the table, and maps to exactly the submitted fields, and the table invariant is kept |
| `BookStore.Get` | backend/main.py:104-116 | found exactly when the id fits SQLite's signed 64-bit INTEGER and is stored, returning that row; an id outside that range gives 500 with the driver's overflow text, any other unknown id 404; the table is unchanged |
| `BookStore.Update` | backend/main.py:118-136 | an invalid body gives 422, then an id outside the 64-bit range 500 and an unknown id 404, each leaving the table as it was; otherwise all four fields of that id are replaced, the id is kept and every other row and the counter are unchanged |
| `BookStore.Delete` | backend/main.py:138-152 | an id outside the 64-bit range gives 500 and an unknown id 404, both changing nothing; otherwise exactly that key is removed and every other row and the counter are unchanged |
| `BookStore.List` | backend/main.py:94-100 | a book is listed exactly when its id is stored with those fields, once each, in ascending id order |
| `BookStore.Serve` | backend/main.py:78-152 | the two reads leave the table unchanged, and every request keeps the invariant that stored ids lie between 1 and the counter |
| `BookStore.Detail` | backend/main.py:92-152 | the detail is the violation list exactly for a 422; a 404 names the id ("Book with id N not found"); an unbindable id gives the handler's "Error fetching/updating/deleting book: " prefix and the driver's overflow text; every text detail is non-empty |
| `BookStore.StoredIdsBindable` | backend/main.py:104-112 | every id a reachable table holds fits the 64-bit range, so reading it back succeeds |
| `BookStore.IdsNeverReused` | backend/main.py:65 | after a book is deleted, the next create gets a larger id, never the deleted one |
| `BookStore.CreateThenGet` | backend/main.py:83-112 | reading back the id a create returned gives the submitted fields |
| `BookStore.UpdateThenGet` | backend/main.py:126-131 | reading back an updated id gives the new fields under the same id |
| `BookStore.DeleteThenGet` | backend/main.py:143-146 | after a delete the id reads as 404, and any other id reads as before |
| `Decimal.ParseInt` | frontend/src/App.jsx:116 | there is no number exactly when no digit follows the optional sign |
| `Decimal.ParseIntToString` | frontend/src/App.jsx:86 | reading back the decimal text written for any integer gives that integer |
| `Decimal.ParseIntIgnoresTail` | frontend/src/App.jsx:116 | an optional sign and a digit run, followed by a non-digit, read as the signed value of the digits alone |
| `BookForm.SetField` | frontend/src/App.jsx:102-105 | the changed field holds the new text and the other three are untouched |
| `BookForm.Normalize` | frontend/src/App.jsx:113-118 | title and author pass through verbatim; year is null for empty text and otherwise the exact integer value of the text's signed decimal prefix (null when it has no digit); genre is null exactly when its text is empty, else unchanged |
| `BookForm.Seed` | frontend/src/App.jsx:83-88 | title and author are copied; year text is empty exactly when the year is null or zero; genre text is the genre, or empty when null |
| `BookForm.EditRoundTrip` | frontend/src/App.jsx:83-118 | seeding the form from any book and normalising it unchanged gives back the book's fields, except that a zero year and an empty genre become null |
| `BookForm.EditRoundTripValid` | frontend/src/App.jsx:83-118 | for a book the service accepts whose genre is not empty, that round trip returns exactly its fields |
| `BookForm.ValidSeedComplete` | frontend/src/App.jsx:83-111 | a form seeded from a book the service accepts passes the required-field check |
| `BookForm.BlankTitlePasses` | frontend/src/App.jsx:108 | a title of one space passes the local check, and the service accepts it too |
| `BookForm.CompleteButRefused` | frontend/src/App.jsx:108-118 | a form that passes the local check can still be refused by the service: with year "123" the body is ("Dune", "Herbert", 123, null), and its only violation is the year's lower bound |
| `BookForm.YearDigits` | frontend/src/App.jsx:116 | year text "1999" becomes 1999 |
| `BookForm.YearDigitsThenText` | frontend/src/App.jsx:116 | year text "1999abc" becomes 1999 |
| `BookForm.YearSignedDecimal` | frontend/src/App.jsx:116 | year text "-12.5" becomes -12 |
| `BookForm.YearExponent` | frontend/src/App.jsx:116 | year text "1e3", which a number field accepts, becomes 1: the read stops at the `e` |
| `BookForm.YearWithoutDigits` | frontend/src/App.jsx:116 | year text "abc" and empty year text both become null, not a rejection |
| `Notice.Close` | frontend/src/App.jsx:76-78 | the notification is hidden and keeps its message and severity |
| `Notice.DetailOr` | frontend/src/App.jsx:131-134 | the service's detail is shown when it is truthy: a non-empty string or any violation list; an empty or missing detail gives the fixed fallback |
| `Notice.ReadableDetailOr` | frontend/src/App.jsx:131-134 | corrected message: the detail only when it is a non-empty string, otherwise the fallback text |
| `App.ShowSnackbar` | frontend/src/App.jsx:72-74 | the notification shows the given message and severity; nothing else changes |
| `App.CloseSnackbar` | frontend/src/App.jsx:76-78 | only the open flag changes, to false; message, severity and the rest of the page are kept |
| `App.CloseSnackbarIdempotent` | frontend/src/App.jsx:76-78 | closing the notification twice equals closing it once |
| `App.ShowReplaces` | frontend/src/App.jsx:72-74 | showing a notification discards the previous one entirely |
| `App.FetchStart` | frontend/src/App.jsx:59-62 | loading turns on and one list request is sent; nothing else changes |
| `App.FetchFinish` | frontend/src/App.jsx:62-69 | loading is off on both paths; on success the books are replaced wholesale by the response; on failure the books stay and the load error is shown |
| `App.Mount` | frontend/src/App.jsx:36-57 | the first page has no books, no dialog open, loading on and one list request sent |
| `App.OpenDialog` | frontend/src/App.jsx:80-94 | the create/edit dialog opens; with a book, it is the edited book and the form is seeded from it; without one, no book is edited and the form is empty; nothing else changes |
| `App.CloseDialog` | frontend/src/App.jsx:96-100 | the dialog closes, the edited book is forgotten and the form emptied; nothing else changes |
| `App.InputChange` | frontend/src/App.jsx:102-105 | the named field takes the typed text, the other fields and the rest of the page are kept |
| `App.SubmitRequest` | frontend/src/App.jsx:107-127 | no request exactly when title or author is empty; otherwise an update of the edited book's id, or a create when none is edited, with the normalised form as body |
| `App.Submit` | frontend/src/App.jsx:107-136 | an incomplete form sends nothing and only shows a warning; success sends the save then a list request, shows the created/updated message, and closes and resets the dialog with loading on; failure sends only the save, shows the detail or the fallback as an error and keeps dialog, form and edited book |
| `App.OpenDeleteDialog` | frontend/src/App.jsx:138-141 | the confirmation opens on the given book; nothing else changes |
| `App.CloseDeleteDialog` | frontend/src/App.jsx:143-146 | the confirmation closes and the selected book is forgotten; nothing else changes |
| `App.Delete` | frontend/src/App.jsx:148-158 | with no selected book nothing is sent and the delete error is shown; success sends the delete then a list request, shows the success message and closes the confirmation with loading on; failure sends only the delete, shows the error and keeps the confirmation and its book |
| `App.ViewDetails` | frontend/src/App.jsx:160-169 | one read of the id is sent; on success the details dialog opens on the returned book; on failure only the error is shown |
| `App.CloseDetailsDialog` | frontend/src/App.jsx:171-174 | the details dialog closes and the selected book is forgotten; nothing else changes |
| `App.DispatchPreservesInvariants` | frontend/src/App.jsx:80-174 | every handler keeps "no edited book or draft outside the create/edit dialog" and "a book is selected only while the details or delete dialog is open" |
| `App.MountSatisfiesInvariants` | frontend/src/App.jsx:36-57 | the first page satisfies both of those invariants |
| `App.SharedSelection` | frontend/src/App.jsx:138-174 | a details read that resolves while the confirmation is open retargets the confirmation; closing the details then leaves the confirmation open with no book, and confirming sends no delete |
| `App.RetryAfterFailedSave` | frontend/src/App.jsx:130-135 | after a failed save, submitting again issues the same request |
| `Session.AsOutcome` | frontend/src/App.jsx:132 | a service success reaches the page as its body; a failure reaches it with the error's detail, a string or the violation list |
| `Session.ListAfterCreate` | backend/main.py:83-100 | after a valid create the list has one more book, the new one under an id not stored before, and still every earlier book |
| `Session.CreateThenReload` | frontend/src/App.jsx:120-129 | creating a valid book and reloading lists one more book, with the normalised draft under an unused id, keeps every earlier book, and closes the dialog with a success message |
| `Session.UpdateThenReload` | frontend/src/App.jsx:120-129 | editing a stored book and reloading lists the new fields under its id; every other book is listed as before and the length is kept |
| `Session.DeleteThenReload` | frontend/src/App.jsx:148-153 | deleting a stored book and reloading lists no book with its id, keeps every other book and shortens the list by one |
| `Session.DeleteMissing` | frontend/src/App.jsx:154-157 | deleting a book the service no longer has changes nothing on the service and keeps the confirmation open on the same book with an error |
| `Session.UpdateMissing` | frontend/src/App.jsx:130-135 | saving an edit of a book the service no longer has shows the service's not-found detail, or the overflow detail for an id outside the 64-bit range, and keeps the draft |
| `Session.SaveServed` | frontend/src/App.jsx:113-125 | the save request the page sends, answered by the service's router, changes the table as the update or create handler does and returns the saved book as its body, or the same error |
| `Session.DetailsFromService` | frontend/src/App.jsx:160-168 | details show the book as the service holds it; an unknown id shows an error and changes no dialog |
| `Session.ClearedTitleRefused` | frontend/src/App.jsx:108-111 | clearing the title of an edited book and submitting sends nothing, warns and keeps the dialog open with the rest of the draft |
| `Session.RefusedYearShowsViolationList` | frontend/src/App.jsx:130-135 | as written: submitting a new book with year "123" sends only the create, and the error notification's message is the violation list for the year, not text |
| `Session.ReadableSaveError` | frontend/src/App.jsx:130-135 | corrected: for any service error the shown message is text, the fallback for a 422 and the service's string otherwise |
| `Session.RefusedYearReadable` | frontend/src/App.jsx:130-135 | corrected, for year "123": the notification shows "Error al guardar el libro" |
| `Session.CreateDuneScenario` | frontend/src/App.jsx:107-129 | from a fresh page and an empty service, creating "Dune" by "Herbert", year "1965", lists exactly that book with id 1, year 1965 and no genre, and closes the dialog with a success message |

## Left out

- Rendering (the JSX tree, Material UI components, icons, the table's `'-'` placeholders): presentation only.
- Transport: axios and the network are not modelled. Each awaited call's outcome is an input (`App.Outcome`). A transport failure is a rejection with no detail.
- Console logging in the error paths: it has no effect on state.
- Interleaving of concurrent requests: each handler runs atomically. The list request that a save or delete starts without awaiting it ends in a later, separate `ListDone` event. Double submission is not guarded in the code and is not modelled further.
- The 4000 ms auto-hide timer belongs to the notification library. Its effect equals `App.CloseSnackbar` (event `SnackbarClosed`).
- Decimal.ParseInt: reads an optional sign and a decimal digit run only, and returns that run's exact integer value. Not modelled: JavaScript's leading-whitespace and `0x` rules; the rounding of the result to the nearest double, which changes runs above 2^53 (text "9007199254740993" gives 9007199254740992); and a run of about 309 digits or more, whose value rounds to `Infinity`. NaN, which JSON sends as null, is modelled as no year. `String(n)` for numbers of 1e21 or more is not modelled either.
- Decimal.ParseIntIgnoresTail: states the exact signed value of the digit run. `parseInt` gives the nearest double instead: it is rounded above 2^53, and it is `Infinity` once the value reaches about 2^1024.
- BookForm.Normalize: the year sent is the exact integer, not `parseInt`'s double. A year text above 2^53 is sent rounded in the browser. A year text of about 309 digits or more becomes `Infinity`, which `JSON.stringify` sends as null, so the service stores the book with no year where the model answers 422. A browser's number field blanks text that does not parse to a finite number, so only the rounded case is reachable by typing, and the service refuses that year anyway (le=9999).
- A year typed into the number field arrives as text, while a seeded year is a number. Both are held as text here. This is safe because `parseInt` converts its argument to text first, and both forms are truthy in the same cases.
- SQLite connection handling, `init_db`, CORS and server startup are plumbing. So is the generic 500 wrapping of unexpected exceptions. Two exceptions are modelled: an exhausted AUTOINCREMENT counter (500, "database or disk is full"), and a path id outside SQLite's signed 64-bit INTEGER, which the `sqlite3` driver refuses to bind (500, "Python int too large to convert to SQLite INTEGER"; the text is the driver's, not the repository's).
- FastAPI request decoding is not modelled. A non-integer path id and wrongly typed JSON both give 422 there. A path id of up to 4300 digits reaches the handler. A longer one gets 422 from decoding, which Python's integer-string conversion limit and pydantic's own size check both impose; `BookStore.Get`, `BookStore.Update` and `BookStore.Delete` answer it as an unbindable id (500) instead. Only the field constraints of `BookBase` are modelled.
- BookStore.List: `SELECT * FROM books` fixes no order. The model lists ascending ids, the order of a rowid scan.
- BookStore.Create: the new id is the counter plus one. SQLite takes the larger of the counter and the largest stored id. The two agree on every table reachable from the empty one (`BookStore.Inv`).

## Findings

| source | as written | input that shows it | evidently intended | confidence | as-written member | corrected member |
|---|---|---|---|---|---|---|
| frontend/src/App.jsx:131-132 | The save-error fallback expression takes the 422 detail, a non-empty list of violation objects, as the notification message. The Alert then gets that list as its child, and React cannot render plain objects. | a new book with title "Dune", author "Herbert" and year "123": it passes the local check, and the service refuses it with 422 | show a text message: the detail when it is a string, else the fixed fallback | medium; not executed | `Session.RefusedYearShowsViolationList` | `Notice.ReadableDetailOr` |

The page model (`App.Submit`) keeps the as-written `Notice.DetailOr`,
so that every other contract describes the code as it is.
`Notice.ReadableDetailOr` is the corrected definition. `Session.ReadableSaveError`
and `Session.RefusedYearReadable` prove what it shows.

=== FILE: app.dfy ===
/**
  The catalog page's state and its event handlers. Each handler is a
  transition from one state to the next; a handler that awaits a request
  takes the request's outcome as an input and reports the requests it
  issued, in order.
 */
module App {
  import opened Wrappers
  import opened Books
  import opened BookForm
  import opened Notice

  const MsgLoadError := Text("Error al cargar los libros")
  const MsgRequired := Text("Título y autor son obligatorios")
  const MsgUpdated := Text("Libro actualizado exitosamente")
  const MsgCreated := Text("Libro creado exitosamente")
  const MsgSaveError := Text("Error al guardar el libro")
  const MsgDeleted := Text("Libro eliminado exitosamente")
  const MsgDeleteError := Text("Error al eliminar el libro")
  const MsgDetailsError := Text("Error al cargar los detalles")

  /**
    The page's state. The three dialogs are independent flags;
    `currentBook` is the book the create/edit dialog edits (None for a
    new book) and `selectedBook` is shared by the details and the delete
    dialogs.
   */
  datatype UiState = UiState(
    books: seq<Book>,
    loading: bool,
    openDialog: bool,
    openDetailsDialog: bool,
    openDeleteDialog: bool,
    currentBook: Option<Book>,
    selectedBook: Option<Book>,
    formData: FormData,
    snackbar: Snackbar)

  const Initial := UiState([], false, false, false, false, None, None, EmptyForm, Hidden)

  /** How an awaited request ended: its response body, or a failure with the body's `detail`, if any. */
  datatype Outcome<+T> = Resolved(value: T) | Rejected(detail: Option<Message>)

  /** The state after a handler, and the requests it issued. */
  datatype Step = Step(state: UiState, sent: seq<Request>)

  /** `showSnackbar`: the new notification replaces the old one, shown. */
  function ShowSnackbar(s: UiState, message: Message, severity: Severity): (t: UiState)
    ensures t.snackbar.open && t.snackbar.message == message && t.snackbar.severity == severity
    ensures t.(snackbar := s.snackbar) == s
  {
    s.(snackbar := Snackbar(true, message, severity))
  }

  /** `handleCloseSnackbar`, also what the auto-hide timer does. */
  function CloseSnackbar(s: UiState): (t: UiState)
    ensures !t.snackbar.open
    ensures t.snackbar.message == s.snackbar.message && t.snackbar.severity == s.snackbar.severity
    ensures t.(snackbar := s.snackbar) == s
  {
    s.(snackbar := Close(s.snackbar))
  }

  /** The part of `fetchBooks` that runs before the list request is awaited. */
  function FetchStart(s: UiState): (t: Step)
    ensures t.state.loading
    ensures t.sent == [ListBooks]
    ensures t.state.(loading := s.loading) == s
  {
    Step(s.(loading := true), [ListBooks])
  }

  /**
    The part of `fetchBooks` that runs when the list request ends:
    loading stops on both paths; the list replaces the books wholesale,
    or on failure the books stay and an error is shown.
   */
  function FetchFinish(s: UiState, o: Outcome<seq<Book>>): (t: UiState)
    ensures !t.loading
    ensures o.Resolved? ==> t.books == o.value && t.(books := s.books, loading := s.loading) == s
    ensures o.Rejected? ==>
      && t.books == s.books
      && t.snackbar == Snackbar(true, MsgLoadError, Error)
      && t.(snackbar := s.snackbar, loading := s.loading) == s
  {
    match o
    case Resolved(books) => s.(books := books, loading := false)
    case Rejected(_) => ShowSnackbar(s, MsgLoadError, Error).(loading := false)
  }

  /** The page as first shown: the initial state with the first list request under way. */
  function Mount(): (t: Step)
    ensures t.sent == [ListBooks]
    ensures t.state.loading && t.state.books == []
    ensures !t.state.openDialog && !t.state.openDetailsDialog && !t.state.openDeleteDialog
  {
    FetchStart(Initial)
  }

  /**
    `handleOpenDialog(book)`: opens the create/edit dialog, editing `book`
    with the form seeded from it, or creating with an empty form.
   */
  function OpenDialog(s: UiState, book: Option<Book>): (t: UiState)
    ensures t.openDialog
    ensures t.currentBook == book
    ensures book.None? ==> t.formData == EmptyForm
    ensures book.Some? ==> t.formData == Seed(book.value)
    ensures t.(openDialog := s.openDialog, currentBook := s.currentBook, formData := s.formData) == s
  {
    match book
    case Some(b) => s.(currentBook := Some(b), formData := Seed(b), openDialog := true)
    case None => s.(currentBook := None, formData := EmptyForm, openDialog := true)
  }

  /** `handleCloseDialog`: closes the create/edit dialog and discards the draft. */
  function CloseDialog(s: UiState): (t: UiState)
    ensures !t.openDialog && t.currentBook.None? && t.formData == EmptyForm
    ensures t.(openDialog := s.openDialog, currentBook := s.currentBook, formData := s.formData) == s
  {
    s.(openDialog := false, currentBook := None, formData := EmptyForm)
  }

  /** `handleInputChange`: one field of the draft takes the typed text. */
  function InputChange(s: UiState, field: Field, value: string): (t: UiState)
    ensures FieldValue(t.formData, field) == value
    ensures forall g :: g != field ==> FieldValue(t.formData, g) == FieldValue(s.formData, g)
    ensures t.(formData := s.formData) == s
  {
    s.(formData := SetField(s.formData, field, value))
  }

  /**
    The request `handleSubmit` issues: none when the local check fails,
    else an update of the edited book or a create, with the normalised
    draft as the body.
   */
  function SubmitRequest(s: UiState): (r: Option<Request>)
    ensures r.None? <==> !Complete(s.formData)
    ensures r.Some? && s.currentBook.Some? ==> r.value == UpdateBook(s.currentBook.value.id, Normalize(s.formData))
    ensures r.Some? && s.currentBook.None? ==> r.value == CreateBook(Normalize(s.formData))
  {
    if !Complete(s.formData) then None
    else
      match s.currentBook
      case Some(b) => Some(UpdateBook(b.id, Normalize(s.formData)))
      case None => Some(CreateBook(Normalize(s.formData)))
  }

  /**
    `handleSubmit`, with `o` the outcome of the update or create. A draft
    without title or author sends nothing and only warns. On success the
    page shows a success message, starts a reload and closes the dialog;
    on failure it shows the service's detail (or a fixed message) and
    keeps the dialog and the draft for another try.
   */
  function Submit(s: UiState, o: Outcome<Book>): (t: Step)
    ensures !Complete(s.formData) ==>
      && t.sent == []
      && t.state.snackbar == Snackbar(true, MsgRequired, Warning)
      && t.state.(snackbar := s.snackbar) == s
    ensures Complete(s.formData) && o.Resolved? ==>
      && t.sent == [SubmitRequest(s).value, ListBooks]
      && t.state.snackbar == Snackbar(true, if s.currentBook.Some? then MsgUpdated else MsgCreated, Success)
      && t.state.loading
      && !t.state.openDialog && t.state.currentBook.None? && t.state.formData == EmptyForm
      && t.state.(snackbar := s.snackbar, loading := s.loading, openDialog := s.openDialog,
                  currentBook := s.currentBook, formData := s.formData) == s
    ensures Complete(s.formData) && o.Rejected? ==>
      && t.sent == [SubmitRequest(s).value]
      && t.state.snackbar == Snackbar(true, DetailOr(o.detail, MsgSaveError), Error)
      && t.state.(snackbar := s.snackbar) == s
  {
    match SubmitRequest(s)
    case None => Step(ShowSnackbar(s, MsgRequired, Warning), [])
    case Some(req) =>
      match o
      case Resolved(_) =>
        var shown := ShowSnackbar(s, if s.currentBook.Some? then MsgUpdated else MsgCreated, Success);
        var fetch := FetchStart(shown);
        Step(CloseDialog(fetch.state), [req] + fetch.sent)
      case Rejected(detail) =>
        Step(ShowSnackbar(s, DetailOr(detail, MsgSaveError), Error), [req])
  }

  /** `handleOpenDeleteDialog`: asks to confirm deleting `book`. */
  function OpenDeleteDialog(s: UiState, book: Book): (t: UiState)
    ensures t.openDeleteDialog && t.selectedBook == Some(book)
    ensures t.(openDeleteDialog := s.openDeleteDialog, selectedBook := s.selectedBook) == s
  {
    s.(selectedBook := Some(book), openDeleteDialog := true)
  }

  /** `handleCloseDeleteDialog`: closes the confirmation and forgets the selected book. */
  function CloseDeleteDialog(s: UiState): (t: UiState)
    ensures !t.openDeleteDialog && t.selectedBook.None?
    ensures t.(openDeleteDialog := s.openDeleteDialog, selectedBook := s.selectedBook) == s
  {
    s.(openDeleteDialog := false, selectedBook := None)
  }

  /**
    `handleDelete`, with `o` the outcome of the delete request. With no
    selected book, reading its id fails inside the handler's own error
    handling: nothing is sent and the delete error is shown. On success
    the page shows a success message, starts a reload and closes the
    confirmation; on failure it shows an error and keeps the
    confirmation and its book for another try.
   */
  function Delete(s: UiState, o: Outcome<()>): (t: Step)
    ensures s.selectedBook.None? ==>
      && t.sent == []
      && t.state.snackbar == Snackbar(true, MsgDeleteError, Error)
      && t.state.(snackbar := s.snackbar) == s
    ensures s.selectedBook.Some? && o.Resolved? ==>
      && t.sent == [DeleteBook(s.selectedBook.value.id), ListBooks]
      && t.state.snackbar == Snackbar(true, MsgDeleted, Success)
      && t.state.loading
      && !t.state.openDeleteDialog && t.state.selectedBook.None?
      && t.state.(snackbar := s.snackbar, loading := s.loading, openDeleteDialog := s.openDeleteDialog,
                  selectedBook := s.selectedBook) == s
    ensures s.selectedBook.Some? && o.Rejected? ==>
      && t.sent == [DeleteBook(s.selectedBook.value.id)]
      && t.state.snackbar == Snackbar(true, MsgDeleteError, Error)
      && t.state.(snackbar := s.snackbar) == s
  {
    match s.selectedBook
    case None => Step(ShowSnackbar(s, MsgDeleteError, Error), [])
    case Some(b) =>
      match o
      case Resolved(_) =>
        var fetch := FetchStart(ShowSnackbar(s, MsgDeleted, Success));
        Step(CloseDeleteDialog(fetch.state), [DeleteBook(b.id)] + fetch.sent)
      case Rejected(_) =>
        Step(ShowSnackbar(s, MsgDeleteError, Error), [DeleteBook(b.id)])
  }

  /**
    `handleViewDetails(id)`, with `o` the outcome of reading the book:
    the details dialog shows the book as the service returned it; on
    failure only an error is shown.
   */
  function ViewDetails(s: UiState, id: int, o: Outcome<Book>): (t: Step)
    ensures t.sent == [GetBook(id)]
    ensures o.Resolved? ==>
      && t.state.openDetailsDialog && t.state.selectedBook == Some(o.value)
      && t.state.(openDetailsDialog := s.openDetailsDialog, selectedBook := s.selectedBook) == s
    ensures o.Rejected? ==>
      && t.state.snackbar == Snackbar(true, MsgDetailsError, Error)
      && t.state.(snackbar := s.snackbar) == s
  {
    match o
    case Resolved(b) => Step(s.(selectedBook := Some(b), openDetailsDialog := true), [GetBook(id)])
    case Rejected(_) => Step(ShowSnackbar(s, MsgDetailsError, Error), [GetBook(id)])
  }

  /** `handleCloseDetailsDialog`: closes the details and forgets the selected book. */
  function CloseDetailsDialog(s: UiState): (t: UiState)
    ensures !t.openDetailsDialog && t.selectedBook.None?
    ensures t.(openDetailsDialog := s.openDetailsDialog, selectedBook := s.selectedBook) == s
  {
    s.(openDetailsDialog := false, selectedBook := None)
  }

  /** A user action, or the end of a list request started earlier. */
  datatype Event =
    | ListDone(books: Outcome<seq<Book>>)
    | SnackbarClosed
    | DialogOpened(editing: Option<Book>)
    | DialogClosed
    | InputChanged(field: Field, value: string)
    | Submitted(saved: Outcome<Book>)
    | DeleteDialogOpened(target: Book)
    | DeleteDialogClosed
    | DeleteConfirmed(deleted: Outcome<()>)
    | DetailsRequested(id: int, fetched: Outcome<Book>)
    | DetailsDialogClosed

  function Dispatch(s: UiState, e: Event): Step {
    match e
    case ListDone(o) => Step(FetchFinish(s, o), [])
    case SnackbarClosed => Step(CloseSnackbar(s), [])
    case DialogOpened(b) => Step(OpenDialog(s, b), [])
    case DialogClosed => Step(CloseDialog(s), [])
    case InputChanged(f, v) => Step(InputChange(s, f, v), [])
    case Submitted(o) => Submit(s, o)
    case DeleteDialogOpened(b) => Step(OpenDeleteDialog(s, b), [])
    case DeleteDialogClosed => Step(CloseDeleteDialog(s), [])
    case DeleteConfirmed(o) => Delete(s, o)
    case DetailsRequested(id, o) => ViewDetails(s, id, o)
    case DetailsDialogClosed => Step(CloseDetailsDialog(s), [])
  }

  /** Outside the create/edit dialog there is no edited book and no draft. */
  predicate EditorClean(s: UiState) {
    !s.openDialog ==> s.currentBook.None? && s.formData == EmptyForm
  }

  /** A book is selected only while the details or the delete dialog is open. */
  predicate SelectionHeld(s: UiState) {
    s.selectedBook.Some? ==> s.openDetailsDialog || s.openDeleteDialog
  }

  /**
    Every event keeps both properties. Typing is only possible in the
    open create/edit dialog, the only place its text fields exist.
   */
  lemma DispatchPreservesInvariants(s: UiState, e: Event)
    requires EditorClean(s) && SelectionHeld(s)
    requires e.InputChanged? ==> s.openDialog
    ensures EditorClean(Dispatch(s, e).state) && SelectionHeld(Dispatch(s, e).state)
  {
  }

  lemma MountSatisfiesInvariants()
    ensures EditorClean(Mount().state) && SelectionHeld(Mount().state)
  {
  }

  /** Only the latest notification matters: showing one replaces whatever was shown before. */
  lemma ShowReplaces(s: UiState, m1: Message, v1: Severity, m2: Message, v2: Severity)
    ensures ShowSnackbar(ShowSnackbar(s, m1, v1), m2, v2) == ShowSnackbar(s, m2, v2)
  {
  }

  /** Closing the notification twice is the same as closing it once. */
  lemma CloseSnackbarIdempotent(s: UiState)
    ensures CloseSnackbar(CloseSnackbar(s)) == CloseSnackbar(s)
  {
  }

  /**
    The details and delete dialogs share `selectedBook`. If a details
    request resolves while the delete confirmation is open, the
    confirmation now targets the fetched book; closing the details then
    leaves the confirmation open with no book, and confirming sends no
    delete at all.
   */
  lemma SharedSelection(s: UiState, a: Book, b: Book)
    ensures var s1 := OpenDeleteDialog(s, a);
      var s2 := ViewDetails(s1, b.id, Resolved(b)).state;
      var s3 := CloseDetailsDialog(s2);
      && s2.openDeleteDialog && s2.openDetailsDialog && s2.selectedBook == Some(b)
      && s3.openDeleteDialog && s3.selectedBook.None?
      && Delete(s3, Resolved(())).sent == []
      && Delete(s3, Resolved(())).state.snackbar == Snackbar(true, MsgDeleteError, Error)
  {
  }

  /**
    Typing and submitting again after a failed save sends the same kind
    of request to the same target: a failure keeps the draft and the
    edited book.
   */
  lemma RetryAfterFailedSave(s: UiState, detail: Option<Message>)
    requires Complete(s.formData)
    ensures var t := Submit(s, Rejected(detail)).state;
      SubmitRequest(t) == SubmitRequest(s) && t.openDialog == s.openDialog
  {
  }
}

=== FILE: book_form.dfy ===
/**
  The create/edit dialog's form: four raw text fields, how they are
  seeded from a book, the required-field check, and how the text is
  turned into the body sent to the service.
 */
module BookForm {
  import opened Wrappers
  import opened Books
  import Decimal

  datatype FormData = FormData(title: string, author: string, year: string, genre: string)

  /** The form of a new book: every field empty. */
  const EmptyForm := FormData("", "", "", "")

  function FieldValue(f: FormData, field: Field): string {
    match field
    case Title => f.title
    case Author => f.author
    case Year => f.year
    case Genre => f.genre
  }

  /** The form after the text of one field changed (`{ ...formData, [name]: value }`). */
  function SetField(f: FormData, field: Field, value: string): (r: FormData)
    ensures FieldValue(r, field) == value
    ensures forall g :: g != field ==> FieldValue(r, g) == FieldValue(f, g)
  {
    match field
    case Title => f.(title := value)
    case Author => f.(author := value)
    case Year => f.(year := value)
    case Genre => f.(genre := value)
  }

  /**
    The local required-field check: title and author must be non-empty
    strings. Nothing is trimmed, so a title of spaces passes.
   */
  predicate Complete(f: FormData) {
    f.title != "" && f.author != ""
  }

  /**
    The body sent on submit: title and author verbatim, an empty year
    as null and otherwise its decimal prefix (null when it has no
    digits), an empty genre as null and otherwise verbatim.
   */
  function Normalize(f: FormData): (d: BookData)
    ensures d.title == f.title && d.author == f.author
    ensures f.year == "" ==> d.year.None?
    ensures f.year != "" ==> d.year == Decimal.ParseInt(f.year)
    ensures d.genre.None? <==> f.genre == ""
    ensures d.genre.Some? ==> d.genre.value == f.genre
  {
    BookData(
      f.title,
      f.author,
      if f.year == "" then None else Decimal.ParseInt(f.year),
      if f.genre == "" then None else Some(f.genre))
  }

  /**
    The form seeded from a book for editing: a null or zero year and a
    null genre become empty text (`book.year || ''`, `book.genre || ''`);
    a year is written out in decimal.
   */
  function Seed(b: Book): (f: FormData)
    ensures f.title == b.data.title && f.author == b.data.author
    ensures f.year == "" <==> (b.data.year.None? || b.data.year.value == 0)
    ensures f.genre == b.data.genre.GetOr("")
  {
    FormData(
      b.data.title,
      b.data.author,
      match b.data.year
      case None => ""
      case Some(y) => if y == 0 then "" else Decimal.IntToString(y),
      b.data.genre.GetOr(""))
  }

  /**
    Seeding a form from any book and submitting it unchanged sends the
    book's own fields back, except that a zero year and an empty genre
    come back as null.
   */
  lemma EditRoundTrip(b: Book)
    ensures Normalize(Seed(b)) == BookData(
      b.data.title,
      b.data.author,
      if b.data.year == Some(0) then None else b.data.year,
      if b.data.genre == Some("") then None else b.data.genre)
  {
    if b.data.year.Some? && b.data.year.value != 0 {
      Decimal.ParseIntToString(b.data.year.value);
    }
  }

  /** For a book the service accepts whose genre is not empty, the round trip is exact. */
  lemma EditRoundTripValid(b: Book)
    requires Valid(b.data) && b.data.genre != Some("")
    ensures Normalize(Seed(b)) == b.data
  {
    EditRoundTrip(b);
  }

  /** Any body the service accepts has a title and an author, so its seeded form passes the local check. */
  lemma ValidSeedComplete(b: Book)
    requires Valid(b.data)
    ensures Complete(Seed(b))
  {
  }

  /** Only emptiness is checked locally: a title of one space passes, and the service accepts it too. */
  lemma BlankTitlePasses()
    ensures var f := FormData(" ", "Herbert", "", "");
      Complete(f) && Valid(Normalize(f))
  {
  }

  /**
    The local check is weaker than the service's: a complete form with a
    three-digit year normalises to a body the service refuses, for its year alone.
   */
  lemma CompleteButRefused()
    ensures var f := FormData("Dune", "Herbert", "123", "");
      && Complete(f) && !Valid(Normalize(f))
      && Normalize(f) == BookData("Dune", "Herbert", Some(123), None)
      && Violations(Normalize(f)) == [Violation(Year, GreaterThanEqual)]
  {
    Text123();
    var f := FormData("Dune", "Herbert", "123", "");
    var d := BookData("Dune", "Herbert", Some(123), None);
    assert Normalize(f) == d;
    assert !FieldValid(d, Year);
    assert Violations(d) == [Violation(Year, GreaterThanEqual)];
  }

  lemma Text123()
    ensures Decimal.ParseInt("123") == Some(123)
  {
    assert Decimal.NatToString(1) == "1";
    assert Decimal.NatToString(12) == "12";
    assert Decimal.IntToString(123) == "123";
    Decimal.ParseIntToString(123);
  }

  /** The decimal text of 1965 and its reading. */
  lemma Text1965()
    ensures Decimal.IntToString(1965) == "1965" && Decimal.ParseInt("1965") == Some(1965)
  {
    assert Decimal.NatToString(1) == "1";
    assert Decimal.NatToString(19) == "19";
    assert Decimal.NatToString(196) == "196";
    Decimal.ParseIntToString(1965);
  }

  /** The decimal text of 1999 and its reading. */
  lemma Text1999()
    ensures Decimal.IntToString(1999) == "1999" && Decimal.ParseInt("1999") == Some(1999)
  {
    assert Decimal.NatToString(1) == "1";
    assert Decimal.NatToString(19) == "19";
    assert Decimal.NatToString(199) == "199";
    Decimal.ParseIntToString(1999);
  }

  /** Year text made of digits gives its value. */
  lemma YearDigits()
    ensures Normalize(FormData("Dune", "Herbert", "1999", "")).year == Some(1999)
  {
    Text1999();
  }

  /** Year text is read up to its first non-digit. */
  lemma YearDigitsThenText()
    ensures Normalize(FormData("Dune", "Herbert", "1999abc", "")).year == Some(1999)
  {
    Text1999();
    Decimal.DigitsValueOfNatToString(1999);
    Decimal.ParseIntIgnoresTail("", "1999", "abc");
    assert "" + "1999" + "abc" == "1999abc";
  }

  /** A signed decimal from the number field is read as its sign and integer part. */
  lemma YearSignedDecimal()
    ensures Normalize(FormData("Dune", "Herbert", "-12.5", "")).year == Some(-12)
  {
    assert Decimal.NatToString(1) == "1";
    assert Decimal.NatToString(12) == "12";
    Decimal.DigitsValueOfNatToString(12);
    Decimal.ParseIntIgnoresTail("-", "12", ".5");
    assert "-" + "12" + ".5" == "-12.5";
  }

  /** `parseInt` has no exponent rule: a year typed as "1e3" is read up to the `e`. */
  lemma YearExponent()
    ensures Normalize(FormData("Dune", "Herbert", "1e3", "")).year == Some(1)
  {
    assert Decimal.NatToString(1) == "1";
    Decimal.DigitsValueOfNatToString(1);
    Decimal.ParseIntIgnoresTail("", "1", "e3");
    assert "" + "1" + "e3" == "1e3";
  }

  /** Year text without digits gives null rather than a rejection. */
  lemma YearWithoutDigits()
    ensures Normalize(FormData("Dune", "Herbert", "abc", "")).year == None
    ensures Normalize(FormData("Dune", "Herbert", "", "")).year == None
  {
  }
}

=== FILE: book_store.dfy ===
/**
  The service's book table as a value: the rows by id plus the
  AUTOINCREMENT counter, and the five endpoint handlers as pure
  transitions that return the next table and the response.
 */
module BookStore {
  import opened Wrappers
  import opened Books
  import Decimal

  /** The largest rowid SQLite issues (a signed 64-bit integer). */
  const MaxRowId: int := 0x7FFF_FFFF_FFFF_FFFF

  /**
    `rows` maps each stored id to its fields; `lastId` is the largest id
    ever issued (SQLite's `sqlite_sequence` entry for the table), so a
    deleted id is never handed out again.
   */
  datatype Store = Store(rows: map<int, BookData>, lastId: int)

  /** The table the service starts from. */
  const Empty := Store(map[], 0)

  /** Every stored id was issued by the counter and the counter is in range. */
  predicate Inv(s: Store) {
    && 0 <= s.lastId <= MaxRowId
    && forall id :: id in s.rows ==> 1 <= id <= s.lastId
  }

  /**
    The ids the `sqlite3` driver can bind as a query parameter: SQLite's
    signed 64-bit INTEGER. A path id outside this range makes the driver
    raise an OverflowError before the query runs.
   */
  predicate Bindable(id: int) {
    -MaxRowId - 1 <= id <= MaxRowId
  }

  /** The text of the driver's OverflowError for an id it cannot bind. */
  const BindOverflow := "Python int too large to convert to SQLite INTEGER"

  /** The handlers that look a path id up, named as their 500 details name them. */
  datatype Lookup = Fetching | Updating | Deleting

  /** Why the service refuses a request. */
  datatype ApiError =
    | Unprocessable(violations: seq<Violation>)  // 422: the body breaks a field constraint
    | NotFound(id: int)                          // 404: no book with this id
    | StorageFull                                // 500: the id counter is exhausted
    | Unbindable(during: Lookup, id: int)        // 500: the path id does not fit a 64-bit INTEGER

  /**
    The `detail` of an error response: the list of violations for a 422,
    otherwise a string naming the cause.
   */
  function Detail(e: ApiError): (m: Message)
    ensures m.ViolationList? <==> e.Unprocessable?
    ensures e.Unprocessable? ==> m.violations == e.violations
    ensures e.NotFound? ==> m == Text("Book with id " + Decimal.IntToString(e.id) + " not found")
    ensures e.Unbindable? ==> m == Text(ErrorPrefix(e.during) + BindOverflow)
    ensures m.Text? ==> m.text != ""
  {
    match e
    case Unprocessable(vs) => ViolationList(vs)
    case NotFound(id) => Text("Book with id " + Decimal.IntToString(id) + " not found")
    case StorageFull => Text("Error creating book: database or disk is full")
    case Unbindable(during, _) => Text(ErrorPrefix(during) + BindOverflow)
  }

  /** How each lookup handler's `except Exception` begins its 500 detail. */
  function ErrorPrefix(l: Lookup): string {
    match l
    case Fetching => "Error fetching book: "
    case Updating => "Error updating book: "
    case Deleting => "Error deleting book: "
  }

  datatype Response<+T> = Ok(value: T) | Fail(error: ApiError)

  /** The table after a handler ran, and what the handler answered. */
  datatype Handled<+T> = Handled(store: Store, response: Response<T>)

  /** POST /books. */
  function Create(s: Store, d: BookData): (r: Handled<Book>)
    ensures !Valid(d) ==> r == Handled(s, Fail(Unprocessable(Violations(d))))
    ensures Valid(d) && s.lastId >= MaxRowId ==> r == Handled(s, Fail(StorageFull))
    ensures Valid(d) && s.lastId < MaxRowId ==>
      && r.response.Ok?
      && r.response.value.data == d
      && r.response.value.id == s.lastId + 1
      && (Inv(s) ==> r.response.value.id !in s.rows)
      && r.store.lastId == r.response.value.id
      && r.store.rows == s.rows[r.response.value.id := d]
    ensures Inv(s) ==> Inv(r.store)
  {
    if !Valid(d) then Handled(s, Fail(Unprocessable(Violations(d))))
    else if s.lastId >= MaxRowId then Handled(s, Fail(StorageFull))
    else
      var id := s.lastId + 1;
      Handled(Store(s.rows[id := d], id), Ok(Book(id, d)))
  }

  /** GET /books/{id}. An id the driver cannot bind gives 500 before any lookup. */
  function Get(s: Store, id: int): (r: Handled<Book>)
    ensures r.store == s
    ensures r.response.Ok? <==> Bindable(id) && id in s.rows
    ensures r.response.Ok? ==> r.response.value == Book(id, s.rows[id])
    ensures !Bindable(id) ==> r.response == Fail(Unbindable(Fetching, id))
    ensures Bindable(id) && id !in s.rows ==> r.response == Fail(NotFound(id))
  {
    if !Bindable(id) then Handled(s, Fail(Unbindable(Fetching, id)))
    else if id in s.rows then Handled(s, Ok(Book(id, s.rows[id])))
    else Handled(s, Fail(NotFound(id)))
  }

  /**
    PUT /books/{id}: full replacement of the four fields. The body is
    validated before the handler looks the id up, so an invalid body
    gets 422 even for an unknown or unbindable id.
   */
  function Update(s: Store, id: int, d: BookData): (r: Handled<Book>)
    ensures !Valid(d) ==> r == Handled(s, Fail(Unprocessable(Violations(d))))
    ensures Valid(d) && !Bindable(id) ==> r == Handled(s, Fail(Unbindable(Updating, id)))
    ensures Valid(d) && Bindable(id) && id !in s.rows ==> r == Handled(s, Fail(NotFound(id)))
    ensures Valid(d) && Bindable(id) && id in s.rows ==>
      && r.response == Ok(Book(id, d))
      && r.store.lastId == s.lastId
      && r.store.rows.Keys == s.rows.Keys
      && r.store.rows[id] == d
      && forall k :: k in s.rows && k != id ==> r.store.rows[k] == s.rows[k]
    ensures Inv(s) ==> Inv(r.store)
  {
    if !Valid(d) then Handled(s, Fail(Unprocessable(Violations(d))))
    else if !Bindable(id) then Handled(s, Fail(Unbindable(Updating, id)))
    else if id !in s.rows then Handled(s, Fail(NotFound(id)))
    else Handled(s.(rows := s.rows[id := d]), Ok(Book(id, d)))
  }

  /** DELETE /books/{id}. */
  function Delete(s: Store, id: int): (r: Handled<()>)
    ensures !Bindable(id) ==> r == Handled(s, Fail(Unbindable(Deleting, id)))
    ensures Bindable(id) && id !in s.rows ==> r == Handled(s, Fail(NotFound(id)))
    ensures Bindable(id) && id in s.rows ==>
      && r.response.Ok?
      && r.store.lastId == s.lastId
      && r.store.rows.Keys == s.rows.Keys - {id}
      && forall k :: k in r.store.rows ==> r.store.rows[k] == s.rows[k]
    ensures Inv(s) ==> Inv(r.store)
  {
    if !Bindable(id) then Handled(s, Fail(Unbindable(Deleting, id)))
    else if id !in s.rows then Handled(s, Fail(NotFound(id)))
    else Handled(s.(rows := s.rows - {id}), Ok(()))
  }

  lemma Pick(keys: set<int>) returns (x: int)
    requires |keys| > 0
    ensures x in keys
  {
    if forall y :: y !in keys {
      assert false;
    }
    x :| x in keys;
  }

  lemma {:induction false} MinExists(keys: set<int>)
    requires |keys| > 0
    ensures exists k :: k in keys && forall j :: j in keys ==> k <= j
    decreases |keys|
  {
    var x := Pick(keys);
    var rest := keys - {x};
    if |rest| > 0 {
      MinExists(rest);
      var m :| m in rest && forall j :: j in rest ==> m <= j;
      var k := if x < m then x else m;
      assert forall j :: j in keys ==> j == x || j in rest;
      assert k in keys && forall j :: j in keys ==> k <= j;
    } else {
      assert forall j :: j in keys ==> j == x;
    }
  }

  /** The smallest of a non-empty set of ids. */
  function MinKey(keys: set<int>): (k: int)
    requires |keys| > 0
    ensures k in keys && forall j :: j in keys ==> k <= j
  {
    MinExists(keys);
    var k :| k in keys && forall j :: j in keys ==> k <= j;
    k
  }

  /** The ids of `keys` in ascending order. */
  function SortedKeys(keys: set<int>): (r: seq<int>)
    ensures |r| == |keys|
    ensures forall i :: 0 <= i < |r| ==> r[i] in keys
    ensures forall k :: k in keys ==> k in r
    ensures forall i, j :: 0 <= i < j < |r| ==> r[i] < r[j]
    decreases |keys|
  {
    if |keys| == 0 then []
    else
      var k := MinKey(keys);
      var rest := keys - {k};
      var tail := SortedKeys(rest);
      PrependMin(k, rest, tail);
      [k] + tail
  }

  lemma PrependMin(k: int, rest: set<int>, tail: seq<int>)
    requires k !in rest && forall j :: j in rest ==> k < j
    requires |tail| == |rest|
    requires forall i :: 0 <= i < |tail| ==> tail[i] in rest
    requires forall x :: x in rest ==> x in tail
    requires forall i, j :: 0 <= i < j < |tail| ==> tail[i] < tail[j]
    ensures var r := [k] + tail;
      && |r| == |rest + {k}|
      && (forall i :: 0 <= i < |r| ==> r[i] in rest + {k})
      && (forall x :: x in rest + {k} ==> x in r)
      && (forall i, j :: 0 <= i < j < |r| ==> r[i] < r[j])
  {
    var r := [k] + tail;
    assert forall i :: 0 < i < |r| ==> r[i] == tail[i - 1];
  }

  /** The book stored under each id of `ks`, in the order of `ks`. */
  function BooksAt(rows: map<int, BookData>, ks: seq<int>): (r: seq<Book>)
    requires forall i :: 0 <= i < |ks| ==> ks[i] in rows
    ensures |r| == |ks|
    ensures forall i :: 0 <= i < |r| ==> r[i] == Book(ks[i], rows[ks[i]])
  {
    if ks == [] then [] else [Book(ks[0], rows[ks[0]])] + BooksAt(rows, ks[1..])
  }

  /** Every id of `ks` has its book in `BooksAt(rows, ks)`. */
  lemma BooksAtCovers(rows: map<int, BookData>, ks: seq<int>, k: int)
    requires forall i :: 0 <= i < |ks| ==> ks[i] in rows
    requires k in ks
    ensures k in rows && Book(k, rows[k]) in BooksAt(rows, ks)
  {
    var i :| 0 <= i < |ks| && ks[i] == k;
    assert BooksAt(rows, ks)[i] == Book(k, rows[k]);
  }

  /** The stored rows as books, in ascending id order. */
  function SortedRows(rows: map<int, BookData>): (r: seq<Book>)
    ensures |r| == |rows.Keys|
    ensures forall i :: 0 <= i < |r| ==> r[i].id in rows && rows[r[i].id] == r[i].data
    ensures forall k :: k in rows ==> Book(k, rows[k]) in r
    ensures forall i, j :: 0 <= i < j < |r| ==> r[i].id < r[j].id
  {
    var ks := SortedKeys(rows.Keys);
    BooksAtSorted(rows, ks);
    BooksAt(rows, ks)
  }

  /** Over ascending ids that cover the table, `BooksAt` lists every row once, in that order. */
  lemma BooksAtSorted(rows: map<int, BookData>, ks: seq<int>)
    requires forall i :: 0 <= i < |ks| ==> ks[i] in rows
    requires forall k :: k in rows ==> k in ks
    requires forall i, j :: 0 <= i < j < |ks| ==> ks[i] < ks[j]
    ensures var r := BooksAt(rows, ks);
      && (forall i :: 0 <= i < |r| ==> r[i].id in rows && rows[r[i].id] == r[i].data)
      && (forall k :: k in rows ==> Book(k, rows[k]) in r)
      && (forall i, j :: 0 <= i < j < |r| ==> r[i].id < r[j].id)
  {
    forall k | k in rows
      ensures Book(k, rows[k]) in BooksAt(rows, ks)
    {
      BooksAtCovers(rows, ks, k);
    }
  }

  /** GET /books: every stored book, in ascending id order. */
  function List(s: Store): (r: Handled<seq<Book>>)
    ensures r.store == s
    ensures r.response.Ok?
    ensures forall b :: b in r.response.value <==> b.id in s.rows && s.rows[b.id] == b.data
    ensures |r.response.value| == |s.rows.Keys|
    ensures forall i, j :: 0 <= i < j < |r.response.value| ==> r.response.value[i].id < r.response.value[j].id
  {
    var books := SortedRows(s.rows);
    MembersAreRows(s.rows, books);
    Handled(s, Ok(books))
  }

  /** A sequence whose every position holds a stored row holds only stored rows. */
  lemma MembersAreRows(rows: map<int, BookData>, r: seq<Book>)
    requires forall i :: 0 <= i < |r| ==> r[i].id in rows && rows[r[i].id] == r[i].data
    ensures forall b :: b in r ==> b.id in rows && rows[b.id] == b.data
  {
    forall b | b in r
      ensures b.id in rows && rows[b.id] == b.data
    {
      var i :| 0 <= i < |r| && r[i] == b;
    }
  }

  /** The service: one request in, the next table and the response out. */
  datatype Reply = Books(books: seq<Book>) | One(book: Book) | NoContent

  function Serve(s: Store, req: Request): (r: Handled<Reply>)
    ensures req.ListBooks? || req.GetBook? ==> r.store == s
    ensures Inv(s) ==> Inv(r.store)
  {
    match req
    case ListBooks => Handled(s, Ok(Books(List(s).response.value)))
    case GetBook(id) => Lift(Get(s, id), (b: Book) => One(b))
    case CreateBook(d) => Lift(Create(s, d), (b: Book) => One(b))
    case UpdateBook(id, d) => Lift(Update(s, id, d), (b: Book) => One(b))
    case DeleteBook(id) => Lift(Delete(s, id), (_: ()) => NoContent)
  }

  function Lift<T>(h: Handled<T>, f: T -> Reply): Handled<Reply> {
    match h.response
    case Ok(v) => Handled(h.store, Ok(f(v)))
    case Fail(e) => Handled(h.store, Fail(e))
  }

  /**
    Every id a table reachable from the empty one holds is bindable, so
    the 500 for an unbindable id only meets ids the page never listed.
   */
  lemma StoredIdsBindable(s: Store, id: int)
    requires Inv(s) && id in s.rows
    ensures Bindable(id)
    ensures Get(s, id).response == Ok(Book(id, s.rows[id]))
  {
  }

  /** An id once issued is never issued again, even after its book is deleted. */
  lemma IdsNeverReused(s: Store, id: int, d: BookData)
    requires Inv(s) && id in s.rows
    ensures var c := Create(Delete(s, id).store, d);
      c.response.Ok? ==> c.response.value.id != id && c.response.value.id > id
  {
  }

  /** Creating a book and then reading it back by the returned id gives the submitted fields. */
  lemma CreateThenGet(s: Store, d: BookData)
    requires Inv(s) && Valid(d) && s.lastId < MaxRowId
    ensures var c := Create(s, d);
      && c.response.Ok?
      && Get(c.store, c.response.value.id).response == Ok(Book(c.response.value.id, d))
  {
  }

  /** Updating an existing book and reading it back gives the new fields under the same id. */
  lemma UpdateThenGet(s: Store, id: int, d: BookData)
    requires Inv(s) && Valid(d) && id in s.rows
    ensures Get(Update(s, id, d).store, id).response == Ok(Book(id, d))
  {
  }

  /** After a delete the id reads as not found, and the other books still read back unchanged. */
  lemma DeleteThenGet(s: Store, id: int, other: int)
    requires Inv(s) && id in s.rows && other != id
    ensures var t := Delete(s, id).store;
      && Get(t, id).response == Fail(NotFound(id))
      && Get(t, other).response == Get(s, other).response
  {
  }
}

=== FILE: books.dfy ===
/**
  The book record shared by the service and its client, the field
  constraints the service enforces on every submitted book, and the five
  requests of the `/books` resource.
 */
module Books {
  import opened Wrappers

  const TitleMinLength := 1
  const TitleMaxLength := 200
  const AuthorMinLength := 1
  const AuthorMaxLength := 100
  const YearMin := 1000
  const YearMax := 9999
  const GenreMaxLength := 50

  /** The editable fields of a book (the service's `BookBase`). */
  datatype BookData = BookData(title: string, author: string, year: Option<int>, genre: Option<string>)

  /** A stored book: its server-assigned id and its fields. */
  datatype Book = Book(id: int, data: BookData)

  /** The four editable fields, by the names both sides use for them. */
  datatype Field = Title | Author | Year | Genre

  /** Which bound a field value breaks. */
  datatype ViolationKind = StringTooShort | StringTooLong | GreaterThanEqual | LessThanEqual

  /** One entry of the service's validation error list. */
  datatype Violation = Violation(field: Field, kind: ViolationKind)

  /**
    The constraint on one field. Lengths count characters (Unicode scalar
    values), as the service's string length bounds do.
   */
  predicate FieldValid(d: BookData, f: Field) {
    match f
    case Title => TitleMinLength <= |d.title| <= TitleMaxLength
    case Author => AuthorMinLength <= |d.author| <= AuthorMaxLength
    case Year => d.year.None? || YearMin <= d.year.value <= YearMax
    case Genre => d.genre.None? || |d.genre.value| <= GenreMaxLength
  }

  /** A book the service accepts for create and update. */
  predicate Valid(d: BookData) {
    FieldValid(d, Title) && FieldValid(d, Author) && FieldValid(d, Year) && FieldValid(d, Genre)
  }

  /** The bound, if any, that the value of field `f` breaks. */
  function FieldCheck(d: BookData, f: Field): Option<ViolationKind> {
    match f
    case Title =>
      if |d.title| < TitleMinLength then Some(StringTooShort)
      else if |d.title| > TitleMaxLength then Some(StringTooLong)
      else None
    case Author =>
      if |d.author| < AuthorMinLength then Some(StringTooShort)
      else if |d.author| > AuthorMaxLength then Some(StringTooLong)
      else None
    case Year =>
      if d.year.None? then None
      else if d.year.value < YearMin then Some(GreaterThanEqual)
      else if d.year.value > YearMax then Some(LessThanEqual)
      else None
    case Genre =>
      if d.genre.Some? && |d.genre.value| > GenreMaxLength then Some(StringTooLong) else None
  }

  function ViolationsOf(d: BookData, f: Field): seq<Violation> {
    match FieldCheck(d, f)
    case None => []
    case Some(k) => [Violation(f, k)]
  }

  /**
    The validation error list for a submitted book, in field declaration
    order: empty exactly when the book is valid, and naming every field
    that breaks its constraint and no other.
   */
  function Violations(d: BookData): (r: seq<Violation>)
    ensures r == [] <==> Valid(d)
    ensures forall i :: 0 <= i < |r| ==> !FieldValid(d, r[i].field)
    ensures forall f :: !FieldValid(d, f) ==> exists i :: 0 <= i < |r| && r[i].field == f
  {
    var r := ViolationsOf(d, Title) + ViolationsOf(d, Author) + ViolationsOf(d, Year) + ViolationsOf(d, Genre);
    assert forall f :: !FieldValid(d, f) ==> Violation(f, FieldCheck(d, f).value) in r;
    r
  }

  /**
    The `detail` of an error body, and what a notification shows: a
    string, or the list of violations a 422 response carries.
   */
  datatype Message = Text(text: string) | ViolationList(violations: seq<Violation>)

  /** The requests of the `/books` resource. */
  datatype Request =
    | ListBooks
    | GetBook(id: int)
    | CreateBook(data: BookData)
    | UpdateBook(id: int, data: BookData)
    | DeleteBook(id: int)
}

=== FILE: decimal.dfy ===
/**
  Decimal text for integers, as the browser produces and reads it:
  `String(n)` when a number is written into a text field, and the
  decimal part of `parseInt(text)` when the field is read back.
 */
module Decimal {
  import opened Wrappers

  predicate IsDigit(c: char) {
    '0' <= c <= '9'
  }

  predicate AllDigits(s: string) {
    forall i :: 0 <= i < |s| ==> IsDigit(s[i])
  }

  function DigitValue(c: char): nat
    requires IsDigit(c)
  {
    (c as int) - ('0' as int)
  }

  function DigitChar(d: nat): (c: char)
    requires d < 10
    ensures IsDigit(c) && DigitValue(c) == d
  {
    (('0' as int) + d) as char
  }

  /** The value of a string of decimal digits, most significant first. */
  function DigitsValue(s: string): nat
    requires AllDigits(s)
  {
    if s == [] then 0 else DigitsValue(s[..|s| - 1]) * 10 + DigitValue(s[|s| - 1])
  }

  /** Decimal digits of a natural number, without leading zeros. */
  function NatToString(n: nat): (s: string)
    ensures 0 < |s| && AllDigits(s)
    ensures |s| > 1 ==> s[0] != '0'
  {
    if n < 10 then [DigitChar(n)] else NatToString(n / 10) + [DigitChar(n % 10)]
  }

  /** `String(n)` for an integer `n`: a minus sign for negatives, then the digits. */
  function IntToString(n: int): (s: string)
    ensures 0 < |s|
    ensures n < 0 <==> s[0] == '-'
  {
    if n < 0 then "-" + NatToString(-n) else NatToString(n)
  }

  /** Length of the longest all-digit prefix of `s`. */
  function LeadingDigits(s: string): (k: nat)
    ensures k <= |s|
    ensures AllDigits(s[..k])
    ensures k < |s| ==> !IsDigit(s[k])
  {
    if s == [] || !IsDigit(s[0]) then 0
    else
      var k := 1 + LeadingDigits(s[1..]);
      assert s[..k] == [s[0]] + s[1..][..k - 1];
      k
  }

  /** Length of the optional leading sign. */
  function SignLength(s: string): (k: nat)
    ensures k <= 1 && k <= |s|
  {
    if 0 < |s| && (s[0] == '-' || s[0] == '+') then 1 else 0
  }

  /**
    `parseInt(s)` restricted to decimal text: an optional sign, then the
    longest run of digits; no digits at all gives None (JavaScript's NaN).
   */
  function ParseInt(s: string): (r: Option<int>)
    ensures r.None? <==> (|s| == SignLength(s) || !IsDigit(s[SignLength(s)]))
  {
    var k := SignLength(s);
    var body := s[k..];
    var n := LeadingDigits(body);
    if n == 0 then None
    else
      var v: int := DigitsValue(body[..n]);
      Some(if k == 1 && s[0] == '-' then -v else v)
  }

  lemma {:induction false} LeadingDigitsOfDigits(s: string)
    requires AllDigits(s)
    ensures LeadingDigits(s) == |s|
    decreases |s|
  {
    if s != [] {
      LeadingDigitsOfDigits(s[1..]);
    }
  }

  lemma {:induction false} DigitsValueOfNatToString(n: nat)
    ensures DigitsValue(NatToString(n)) == n
    decreases n
  {
    var s := NatToString(n);
    if n < 10 {
      assert s[..|s| - 1] == [];
    } else {
      DigitsValueOfNatToString(n / 10);
      assert s[..|s| - 1] == NatToString(n / 10);
    }
  }

  /** Reading back the text written for any integer gives that integer. */
  lemma ParseIntToString(n: int)
    ensures ParseInt(IntToString(n)) == Some(n)
  {
    var m: nat := if n < 0 then -n else n;
    var d := NatToString(m);
    var s := IntToString(n);
    LeadingDigitsOfDigits(d);
    DigitsValueOfNatToString(m);
    assert d[..|d|] == d;
    if n < 0 {
      assert s[1..] == d;
    } else {
      assert s[0..] == d;
    }
  }

  /**
    Only the optional sign and the leading digit run matter: whatever
    follows the first non-digit character is ignored.
   */
  lemma {:induction false} ParseIntIgnoresTail(sign: string, d: string, tail: string)
    requires sign == "" || sign == "-" || sign == "+"
    requires 0 < |d| && AllDigits(d)
    requires tail == [] || !IsDigit(tail[0])
    ensures ParseInt(sign + d + tail) == Some(if sign == "-" then 0 - DigitsValue(d) as int else DigitsValue(d) as int)
  {
    var s := sign + d + tail;
    assert SignLength(s) == |sign|;
    assert s[|sign|..] == d + tail;
    LeadingDigitsPrefix(d, tail);
    assert (d + tail)[..|d|] == d;
  }

  lemma {:induction false} LeadingDigitsPrefix(d: string, tail: string)
    requires AllDigits(d)
    requires tail == [] || !IsDigit(tail[0])
    ensures LeadingDigits(d + tail) == |d|
    decreases |d|
  {
    if d == [] {
      assert d + tail == tail;
    } else {
      assert (d + tail)[1..] == d[1..] + tail;
      LeadingDigitsPrefix(d[1..], tail);
    }
  }
}

=== FILE: notice.dfy ===
/** The one notification the page shows: its text, its severity and whether it is showing. */
module Notice {
  import opened Wrappers
  import opened Books

  datatype Severity = Success | Warning | Error

  datatype Snackbar = Snackbar(open: bool, message: Message, severity: Severity)

  /** Nothing shown yet. */
  const Hidden := Snackbar(false, Text(""), Success)

  /**
    Hiding the notification keeps its text and severity, so the closing
    animation still shows the last message.
   */
  function Close(n: Snackbar): (c: Snackbar)
    ensures !c.open
    ensures c.message == n.message && c.severity == n.severity
  {
    n.(open := false)
  }

  /**
    What is shown when a save fails, `detail || fallback`: the service's
    detail when it is truthy (a non-empty string, or any list: a list is
    truthy even when empty), else the fixed fallback.
   */
  function DetailOr(detail: Option<Message>, fallback: Message): (m: Message)
    ensures detail.Some? && detail.value.ViolationList? ==> m == detail.value
    ensures detail.Some? && detail.value.Text? && detail.value.text != "" ==> m == detail.value
    ensures detail.None? || detail.value == Text("") ==> m == fallback
  {
    match detail
    case Some(d) => if d != Text("") then d else fallback
    case None => fallback
  }

  /**
    The evidently intended message for a failed save: the detail only
    when it is a non-empty string, else the fallback, so the notification
    always holds text.
   */
  function ReadableDetailOr(detail: Option<Message>, fallback: string): (m: string)
    ensures detail.Some? && detail.value.Text? && detail.value.text != "" ==> m == detail.value.text
    ensures !(detail.Some? && detail.value.Text? && detail.value.text != "") ==> m == fallback
  {
    match detail
    case Some(Text(t)) => if t != "" then t else fallback
    case _ => fallback
  }
}

=== FILE: session.dfy ===
/**
  The page talking to the service: each request the page issues is
  answered by the service model, and the answer is fed back to the
  handler as its outcome. These lemmas follow a whole interaction,
  including the reload of the list that a successful change starts.
 */
module Session {
  import opened Wrappers
  import opened Books
  import opened BookForm
  import opened Notice
  import BookStore
  import App
  import Decimal

  /** What the page sees of a service response: the body, or the error's `detail` text. */
  function AsOutcome<T>(r: BookStore.Response<T>): (o: App.Outcome<T>)
    ensures r.Ok? <==> o.Resolved?
    ensures r.Ok? ==> o.value == r.value
    ensures r.Fail? ==> o.detail == Some(BookStore.Detail(r.error))
  {
    match r
    case Ok(v) => App.Resolved(v)
    case Fail(e) => App.Rejected(Some(BookStore.Detail(e)))
  }

  /** The books the service lists for `store`. */
  function Listed(store: BookStore.Store): seq<Book> {
    BookStore.List(store).response.value
  }

  /** The end of the reload a successful change started, answered from `store`. */
  function Reload(store: BookStore.Store, s: App.UiState): App.UiState {
    App.FetchFinish(s, AsOutcome(BookStore.List(store).response))
  }

  /** After a create the service lists one more book, the new one, and every earlier book. */
  lemma ListAfterCreate(store: BookStore.Store, d: BookData)
    requires BookStore.Inv(store) && store.lastId < BookStore.MaxRowId && Valid(d)
    ensures var c := BookStore.Create(store, d);
      && c.response.Ok?
      && c.response.value.id !in store.rows
      && Book(c.response.value.id, d) in Listed(c.store)
      && |Listed(c.store)| == |Listed(store)| + 1
      && (forall b :: b in Listed(store) ==> b in Listed(c.store))
  {
    var c := BookStore.Create(store, d);
    var id := c.response.value.id;
    assert c.store.rows.Keys == store.rows.Keys + {id};
  }

  /**
    Creating a valid book from the dialog and reloading: the list grows by
    exactly one, the new entry carries the normalised draft under an id
    not used before, every earlier book is still listed, and the dialog
    is closed with a success message.
   */
  lemma CreateThenReload(store: BookStore.Store, s: App.UiState)
    requires BookStore.Inv(store) && store.lastId < BookStore.MaxRowId
    requires s.currentBook.None? && Complete(s.formData) && Valid(Normalize(s.formData))
    ensures var d := Normalize(s.formData);
      var c := BookStore.Create(store, d);
      var t := App.Submit(s, AsOutcome(c.response));
      var u := Reload(c.store, t.state);
      && t.sent == [CreateBook(d), ListBooks]
      && c.response.Ok?
      && c.response.value.id !in store.rows
      && Book(c.response.value.id, d) in u.books
      && |u.books| == |Listed(store)| + 1
      && (forall b :: b in Listed(store) ==> b in u.books)
      && !u.loading && !u.openDialog && u.formData == EmptyForm
      && u.snackbar == Snackbar(true, App.MsgCreated, Success)
  {
    ListAfterCreate(store, Normalize(s.formData));
  }

  /**
    Editing an existing book and reloading: the entry under the edited id
    carries the normalised draft, every other book is listed exactly as
    before, and the list keeps its length.
   */
  lemma UpdateThenReload(store: BookStore.Store, s: App.UiState, b: Book)
    requires BookStore.Inv(store) && s.currentBook == Some(b) && b.id in store.rows
    requires Complete(s.formData) && Valid(Normalize(s.formData))
    ensures var d := Normalize(s.formData);
      var c := BookStore.Update(store, b.id, d);
      var t := App.Submit(s, AsOutcome(c.response));
      var u := Reload(c.store, t.state);
      && t.sent == [UpdateBook(b.id, d), ListBooks]
      && Book(b.id, d) in u.books
      && (forall x :: x in u.books && x.id != b.id ==> x in Listed(store))
      && (forall x :: x in Listed(store) && x.id != b.id ==> x in u.books)
      && |u.books| == |Listed(store)|
      && !u.loading && !u.openDialog
      && u.snackbar == Snackbar(true, App.MsgUpdated, Success)
  {
  }

  /**
    Confirming the delete of a stored book and reloading: no listed book
    has its id any more, every other book is still listed, and the list
    is one shorter.
   */
  lemma DeleteThenReload(store: BookStore.Store, s: App.UiState, b: Book)
    requires BookStore.Inv(store) && s.selectedBook == Some(b) && b.id in store.rows
    ensures var c := BookStore.Delete(store, b.id);
      var t := App.Delete(s, AsOutcome(c.response));
      var u := Reload(c.store, t.state);
      && t.sent == [DeleteBook(b.id), ListBooks]
      && (forall x :: x in u.books ==> x.id != b.id)
      && (forall x :: x in Listed(store) && x.id != b.id ==> x in u.books)
      && |u.books| + 1 == |Listed(store)|
      && !u.openDeleteDialog && u.selectedBook.None?
      && u.snackbar == Snackbar(true, App.MsgDeleted, Success)
  {
    ListAfterDelete(store, b.id);
  }

  /** After a delete the service lists no book with the id, every other book, and one book fewer. */
  lemma ListAfterDelete(store: BookStore.Store, id: int)
    requires BookStore.Inv(store) && id in store.rows
    ensures var c := BookStore.Delete(store, id);
      && c.response.Ok?
      && (forall x :: x in Listed(c.store) ==> x.id != id)
      && (forall x :: x in Listed(store) && x.id != id ==> x in Listed(c.store))
      && |Listed(c.store)| + 1 == |Listed(store)|
  {
    BookStore.StoredIdsBindable(store, id);
    var c := BookStore.Delete(store, id);
    assert store.rows.Keys == c.store.rows.Keys + {id};
    assert |store.rows.Keys| == |c.store.rows.Keys| + 1;
    forall x | x in Listed(store) && x.id != id
      ensures x in Listed(c.store)
    {
      assert x.id in c.store.rows;
    }
  }

  /**
    Confirming the delete of a book the service no longer has: the
    service changes nothing, and the confirmation stays open on the same
    book with an error shown.
   */
  lemma DeleteMissing(store: BookStore.Store, s: App.UiState, b: Book)
    requires s.selectedBook == Some(b) && b.id !in store.rows
    ensures var c := BookStore.Delete(store, b.id);
      var t := App.Delete(s, AsOutcome(c.response));
      && c.store == store
      && t.state.openDeleteDialog == s.openDeleteDialog && t.state.selectedBook == Some(b)
      && t.state.snackbar == Snackbar(true, App.MsgDeleteError, Error)
      && t.state.books == s.books
  {
  }

  /**
    Saving an edit of a book the service no longer has: the error shown
    is the service's not-found detail, or, for an id outside SQLite's
    64-bit range, the driver's overflow text; the dialog keeps the draft.
   */
  lemma UpdateMissing(store: BookStore.Store, s: App.UiState, b: Book)
    requires s.currentBook == Some(b) && b.id !in store.rows
    requires Complete(s.formData) && Valid(Normalize(s.formData))
    ensures var c := BookStore.Update(store, b.id, Normalize(s.formData));
      var t := App.Submit(s, AsOutcome(c.response));
      && c.store == store
      && t.state.snackbar == Snackbar(true,
           if BookStore.Bindable(b.id) then Text("Book with id " + Decimal.IntToString(b.id) + " not found")
           else Text("Error updating book: " + BookStore.BindOverflow), Error)
      && t.state.openDialog == s.openDialog && t.state.formData == s.formData && t.state.currentBook == Some(b)
  {
  }

  /**
    The save request the page sends, answered by the service's router,
    has the effect of the handler it names: an update of the edited
    book, or a create; the router answers the saved book as its body.
   */
  lemma SaveServed(store: BookStore.Store, s: App.UiState, o: App.Outcome<Book>)
    requires Complete(s.formData)
    ensures var d := Normalize(s.formData);
      var t := App.Submit(s, o);
      var c := if s.currentBook.Some? then BookStore.Update(store, s.currentBook.value.id, d)
               else BookStore.Create(store, d);
      var h := BookStore.Serve(store, t.sent[0]);
      && h.store == c.store
      && (h.response.Ok? <==> c.response.Ok?)
      && (c.response.Ok? ==> h.response.value == BookStore.One(c.response.value))
      && (c.response.Fail? ==> h.response == BookStore.Fail(c.response.error))
  {
  }

  /**
    Opening the details of a book: the dialog shows the book as the
    service holds it now; for an id the service does not have, only an
    error is shown and no dialog changes.
   */
  lemma DetailsFromService(store: BookStore.Store, s: App.UiState, id: int)
    requires BookStore.Inv(store)
    ensures var t := App.ViewDetails(s, id, AsOutcome(BookStore.Get(store, id).response)).state;
      && (id in store.rows ==> t.openDetailsDialog && t.selectedBook == Some(Book(id, store.rows[id])))
      && (id !in store.rows ==>
           && t.snackbar == Snackbar(true, App.MsgDetailsError, Error)
           && t.openDetailsDialog == s.openDetailsDialog && t.openDeleteDialog == s.openDeleteDialog
           && t.openDialog == s.openDialog && t.selectedBook == s.selectedBook)
  {
  }

  /**
    Editing a book and clearing its title: the submit is refused locally,
    nothing is sent, a warning is shown, and the dialog stays open with
    the rest of the draft as seeded.
   */
  lemma ClearedTitleRefused(s: App.UiState, b: Book)
    ensures var t := App.Submit(App.InputChange(App.OpenDialog(s, Some(b)), Title, ""), App.Resolved(b));
      && t.sent == []
      && t.state.snackbar == Snackbar(true, App.MsgRequired, Warning)
      && t.state.openDialog && t.state.currentBook == Some(b)
      && t.state.formData == Seed(b).(title := "")
  {
  }

  /**
    From a fresh page and an empty service: load, open the new-book
    dialog, type "Dune", "Herbert" and "1965", submit, and let the reload
    finish. The list holds exactly the created book, id 1, year 1965 and
    no genre, and the dialog is closed with a success message.
   */
  lemma CreateDuneScenario()
    ensures var s0 := Reload(BookStore.Empty, App.Mount().state);
      var s1 := App.OpenDialog(s0, None);
      var s2 := App.InputChange(App.InputChange(App.InputChange(s1, Title, "Dune"), Author, "Herbert"), Year, "1965");
      var d := Normalize(s2.formData);
      var c := BookStore.Create(BookStore.Empty, d);
      var t := App.Submit(s2, AsOutcome(c.response));
      var u := Reload(c.store, t.state);
      && s0.books == []
      && t.sent == [CreateBook(BookData("Dune", "Herbert", Some(1965), None)), ListBooks]
      && u.books == [Book(1, BookData("Dune", "Herbert", Some(1965), None))]
      && !u.openDialog && !u.loading
      && u.snackbar == Snackbar(true, App.MsgCreated, Success)
  {
    Text1965();
    var s0 := Reload(BookStore.Empty, App.Mount().state);
    var s1 := App.OpenDialog(s0, None);
    var s2 := App.InputChange(App.InputChange(App.InputChange(s1, Title, "Dune"), Author, "Herbert"), Year, "1965");
    assert s2.formData == FormData("Dune", "Herbert", "1965", "") && s2.currentBook.None?;
    var d := BookData("Dune", "Herbert", Some(1965), None);
    assert Normalize(s2.formData) == d;
    CreateThenReload(BookStore.Empty, s2);
    var c := BookStore.Create(BookStore.Empty, d);
    assert c.response.value.id == 1;
    assert Listed(BookStore.Empty) == [];
  }

  /**
    As written: creating a book with year "123" passes the local check,
    the service refuses it with 422, and since a list is truthy the
    notification's message becomes the violation list itself, not text.
   */
  lemma RefusedYearShowsViolationList(store: BookStore.Store, s: App.UiState)
    requires s.currentBook.None? && s.formData == FormData("Dune", "Herbert", "123", "")
    ensures var d := Normalize(s.formData);
      var t := App.Submit(s, AsOutcome(BookStore.Create(store, d).response));
      && t.sent == [CreateBook(d)]
      && t.state.snackbar == Snackbar(true, ViolationList([Violation(Year, GreaterThanEqual)]), Error)
      && !t.state.snackbar.message.Text?
  {
    CompleteButRefused();
    var d := Normalize(s.formData);
    var vs := [Violation(Year, GreaterThanEqual)];
    assert AsOutcome(BookStore.Create(store, d).response) == App.Rejected(Some(ViolationList(vs)));
  }

  /**
    Corrected: taking the detail only when it is a non-empty string, a
    failed save always shows text: the service's string detail, or the
    fixed fallback for a 422 or a failure without detail.
   */
  lemma ReadableSaveError(e: BookStore.ApiError, fallback: string)
    ensures ReadableDetailOr(AsOutcome<Book>(BookStore.Fail(e)).detail, fallback)
      == if e.Unprocessable? then fallback else BookStore.Detail(e).text
  {
  }

  /** Corrected, for year "123": the notification shows the save-error text. */
  lemma RefusedYearReadable(store: BookStore.Store)
    ensures var d := Normalize(FormData("Dune", "Herbert", "123", ""));
      var o := AsOutcome(BookStore.Create(store, d).response);
      o.Rejected? && ReadableDetailOr(o.detail, App.MsgSaveError.text) == "Error al guardar el libro"
  {
    CompleteButRefused();
    assert !Valid(BookData("Dune", "Herbert", Some(123), None));
  }
}

=== FILE: wrappers.dfy ===
/** Optional values: the model's stand-in for JSON `null` and Python `None`. */
module Wrappers {

  datatype Option<+T> = None | Some(value: T) {

    /** The wrapped value, or `default` when there is none. */
    function GetOr(default: T): T {
      match this
      case Some(v) => v
      case None => default
    }
  }
}
